=== FILE: README.md ===
# laravel-ticimax order client, modelled in Dafny

This project models the order part of the Ticimax API client for Laravel. It covers
`TicimaxService` and the four order DTOs:

- **`TicimaxService`** holds the base URL, API key, timeout and retry settings. It builds an HTTP
  client with a retry middleware. It offers three operations: `createOrder` (POST
  `/api/Siparis/SiparisEkle`), `getOrder` (GET `/api/Siparis/SiparisDetay?siparisId=…`) and
  `getOrders` (GET `/api/Siparis/SiparisListele` with filters and page keys). Each operation
  decodes the JSON body and rejects a falsy body with "Invalid response from Ticimax API" (500).
  It then maps the body into a DTO, or wraps any exception into a `TicimaxApiException`.
- **`OrderItemDTO`** and **`OrderCreateDTO`** are the request side. They fill in defaults in their
  constructors: the total price of a line, and the order date. Their `toArray` writes the fields
  under the remote API's Turkish names.
- **`OrderResponseDTO`** and **`OrderListResponseDTO`** are the response side. Their `fromArray`
  reads the decoded body with `??` defaults.

Modules, one per file:

- `Options` (`options.dfy`): the option type.
- `Decimal` (`decimal.dfy`): decimal text of integers, zero padding and parsing.
- `Php` (`php.dfy`): the PHP value model. It covers a decoded JSON value, `$a[$k]` and `??`, truthiness, and the coercions PHP applies when a value is passed to a typed `?string` or `int` parameter. An array passed there is a `TypeError`.
- `Dates` (`dates.dfy`): `date('Y-m-d')` and reading it back.
- `Retry` (`retry.dfy`): the retry decider, the exponential backoff, and the number of retries one call takes.
- `OrderItemDto`, `OrderCreateDto`, `OrderResponseDto`, `OrderListResponseDto`: the DTOs.
- `Service` (`service.dfy`): the `TicimaxService` class. The three operations go through one shared `Settle` function. It models the two catch arms, the falsy-body check and the DTO mapping.

A PHP `TypeError` is an `Error`, not an `Exception`. Neither catch arm catches it, so it leaves
the operation unchanged; the model calls this outcome `Uncaught`.

The invalid-body exception is thrown inside the `try` block. It is not a Guzzle exception, so the
general arm catches it. The caller therefore sees the message "An unexpected error occurred:
Invalid response from Ticimax API" with code 500.

The model is parameterised by the parts it cannot see:

- The HTTP transport is a function `send: (Client, Request) -> Reply`. A `Reply` is either a thrown exception or the decoded body. The request carries verb, path, query and JSON body.
- The clock is a `today: Date` parameter of `OrderCreateDto.Create`.
- The retry middleware's view of each attempt is a script `nat -> Attempt`.

The list response defaults are those of `src/DTOs/Order/OrderListResponseDTO.php:17-20`:
no orders, total count 0, page 1, page size 10.

Both `toArray` methods are functions of the DTO here. They change no field, and two calls give
equal arrays.

A missing `Durum` key in a response is only a PHP warning in the code, and the comparison then
sees null. The model treats it as no error.

## Model

| member | source | states |
|---|---|---|
| Decimal.Digits | src/DTOs/Order/OrderResponseDTO.php:9 | the decimal text of a natural number is non-empty, all digits and has no leading zero |
| Decimal.ParseDigitsOfDigits | src/DTOs/Order/OrderResponseDTO.php:18 | the digits of n read back as n |
| Decimal.LeadingZeroIgnored | src/DTOs/Order/OrderResponseDTO.php:18 | a leading '0' does not change the value a digit string reads as |
| Decimal.PadLeft | src/DTOs/Order/OrderCreateDTO.php:27 | zero padding reaches the width, adds only zeros in front and keeps the text |
| Decimal.ParseAfterZeros | src/DTOs/Order/OrderCreateDTO.php:27 | any run of leading zeros leaves the value of a digit string unchanged |
| Decimal.ParsePadded | src/DTOs/Order/OrderCreateDTO.php:27 | a zero-padded field reads back as the number it was padded from |
| Decimal.IntText | src/DTOs/Order/OrderResponseDTO.php:9 | the decimal text of an int starts with '-' exactly when the int is negative |
| Decimal.ParseUnsigned | src/DTOs/Order/OrderListResponseDTO.php:9-11 | a string reads as a natural number exactly when it is a non-empty run of digits |
| Decimal.IntTextRoundTrip | src/DTOs/Order/OrderResponseDTO.php:18 | the text PHP gives an int, passed where a string is expected, reads back as the same int |
| Decimal.IntTextInjective | src/DTOs/Order/OrderResponseDTO.php:18 | two different ints never give the same text |
| Decimal.DigitRun | src/DTOs/Order/OrderListResponseDTO.php:9-11 | the run of digits found at an index is all digits and is ended by a non-digit or by the end of the text |
| Decimal.DigitRunIsMaximal | src/DTOs/Order/OrderListResponseDTO.php:9-11 | every digit run ended by a non-digit or the end of the text is the one DigitRun finds |
| Decimal.LeadingInt | src/DTOs/Order/OrderListResponseDTO.php:9-11 | the leading integer of a string is what some prefix ended by a non-digit reads as; a whole decimal string is its own leading integer; a negative one starts with '-' |
| Decimal.LeadingIntOfText | src/DTOs/Order/OrderListResponseDTO.php:9-11 | an int's text followed by a tail that does not continue the number has that int as its leading integer |
| Php.Count | tests/TicimaxServiceTest.php:127 | `count` of a list is its length and of an associative array its number of keys; it is 0 exactly when the array is falsy |
| Php.Coalesce | src/DTOs/Order/OrderListResponseDTO.php:17-20 | `??` gives the entry when it is present and not null, otherwise the default; its result is always the default or an entry of the array, and never null when the default is not null |
| Php.Truthy | src/Services/TicimaxService.php:131 | a value is falsy exactly when it is null, false, 0, 0.0, "", "0" or an empty array |
| Php.ToNullableString | src/DTOs/Order/OrderResponseDTO.php:9-10 | passing a value to `?string` is a TypeError exactly for arrays, gives null exactly for null, keeps strings and turns an int into text that reads back as it |
| Php.TruncateTowardZero | src/DTOs/Order/OrderListResponseDTO.php:9-11 | a float is cut toward zero, never by a whole unit or more |
| Php.ToInt | src/DTOs/Order/OrderListResponseDTO.php:9-11 | passing a value to `int` keeps ints, turns a bool into 1 or 0, truncates a float toward zero and rejects null and arrays; a string is accepted exactly when it starts with an integer, and gives that integer, so a whole decimal string gives the integer it reads as |
| Php.LeadingNumericString | src/DTOs/Order/OrderListResponseDTO.php:9-11 | an int's text followed by a non-numeric tail, such as "12abc", is accepted by an `int` parameter as that int |
| Php.NullableString | src/DTOs/Order/OrderItemDTO.php:31-33 | an absent string field is written as null, and only then |
| Php.NullableFloat | src/DTOs/Order/OrderItemDTO.php:34-35 | an absent float field is written as null, and only then |
| Php.NullableStringRoundTrip | src/DTOs/Order/OrderItemDTO.php:31-33 | a nullable string field's wire value reads back as the field |
| Php.NullableFloatRoundTrip | src/DTOs/Order/OrderItemDTO.php:34-35 | a nullable float field's wire value reads back as the field |
| Dates.FormatYmd | src/DTOs/Order/OrderCreateDTO.php:27 | `Y-m-d` is at least ten characters long, with '-' six and three characters from the end; the padded year is everything before the first of them, the two-digit month lies between them and the two-digit day follows the second |
| Dates.Field | src/DTOs/Order/OrderCreateDTO.php:27 | a date field is at least its width long, and exactly two characters for a month or day |
| Dates.FieldReadsBack | src/DTOs/Order/OrderCreateDTO.php:27 | a padded date field is all digits and reads back as its number |
| Dates.Joined | src/DTOs/Order/OrderCreateDTO.php:27 | the three fields can be cut back out of the joined text at fixed offsets from its end |
| Dates.FieldsRoundTrip | src/DTOs/Order/OrderCreateDTO.php:27 | the three formatted fields read back as the date |
| Dates.YmdRoundTrip | src/DTOs/Order/OrderCreateDTO.php:27 | the default order date reads back as the clock's date |
| Retry.ShouldRetry | src/Services/TicimaxService.php:77-99 | no retry once retryTimes retries are taken; otherwise retry exactly on a connection failure or a 5xx or 429 response |
| Retry.NotRetriedStatuses | src/Services/TicimaxService.php:94-98 | a status below 500 other than 429, or a failure that is neither a response nor a connection failure, is never retried |
| Retry.Pow2 | src/Services/TicimaxService.php:102 | `2 ** n` is at least 1 |
| Retry.Delay | src/Services/TicimaxService.php:100-103 | the backoff `retrySleep * 2 ** n` is zero exactly when retrySleep is zero, and never nearer zero than retrySleep itself |
| Retry.DelayDoubles | src/Services/TicimaxService.php:100-103 | each backoff delay is twice the previous one |
| Retry.DelayMonotone | src/Services/TicimaxService.php:100-103 | with a non-negative base, delays never shrink |
| Retry.TotalDelayClosedForm | src/Services/TicimaxService.php:100-103 | the first k delays add up to retrySleep * (2^k - 1) |
| Retry.RetriesFrom | src/Services/TicimaxService.php:76-104 | a call never takes more retries than retryTimes allows |
| Retry.Retries | src/Services/TicimaxService.php:76-99 | the retries one call takes, counted from the first attempt, are at most retryTimes and none when retryTimes <= 0 |
| Retry.RetriesBounded | src/Services/TicimaxService.php:84-86 | a call takes at most retryTimes retries, and none when retryTimes <= 0 |
| Retry.RetriesAreGranted | src/Services/TicimaxService.php:76-99 | every retry taken was granted by the decider and the last attempt was refused |
| Retry.ConnectFailuresExhaustRetries | src/Services/TicimaxService.php:84-91 | when every attempt fails to connect the call takes exactly retryTimes retries |
| Retry.ServerErrorThenSuccess | src/Services/TicimaxService.php:43-45 | with the default settings, a 500 then a 200 costs exactly one retry |
| Retry.NotFoundNeverRetried | src/Services/TicimaxService.php:94-98 | a 404 ends the call at once |
| OrderItemDto.Create | src/DTOs/Order/OrderItemDTO.php:7-22 | a given total price is kept, a missing one is price times quantity, all other fields are as given |
| OrderItemDto.ToArray | src/DTOs/Order/OrderItemDTO.php:24-37 | an item is written as an associative array |
| OrderItemDto.KeysOnWire | src/DTOs/Order/OrderItemDTO.php:24-37 | the wire form has exactly the nine remote keys |
| OrderItemDto.WireRoundTrip | src/DTOs/Order/OrderItemDTO.php:24-37 | reading the wire form back gives the item: nothing is lost |
| OrderItemDto.RequiredFieldsOnWire | src/DTOs/Order/OrderItemDTO.php:27-30 | code, quantity, unit price and total go out unchanged under UrunKodu, Miktar, BirimFiyat, ToplamTutar |
| OrderItemDto.AbsentOptionalsAreNull | src/DTOs/Order/OrderItemDTO.php:11-16 | a line built without optional fields sends each of them as null |
| OrderCreateDto.Create | src/DTOs/Order/OrderCreateDTO.php:7-28 | a given order date is kept, a missing one is exactly the Y-m-d text of today, which reads back as today; all other fields are as given |
| OrderCreateDto.ItemsToWire | src/DTOs/Order/OrderCreateDTO.php:35 | one wire item per item |
| OrderCreateDto.ItemsMappedInOrder | src/DTOs/Order/OrderCreateDTO.php:35 | the wire items are as many as the items, and wire item i is the wire form of item i |
| OrderCreateDto.ItemsRoundTrip | src/DTOs/Order/OrderCreateDTO.php:35 | the wire items read back as the items, in order |
| OrderCreateDto.ToArray | src/DTOs/Order/OrderCreateDTO.php:30-51 | an order is written as an associative array |
| OrderCreateDto.KeysOnWire | src/DTOs/Order/OrderCreateDTO.php:30-51 | the wire form has exactly the seventeen remote keys |
| OrderCreateDto.IdentityOnWire | src/DTOs/Order/OrderCreateDTO.php:33-34 | order number and customer code go out unchanged under SiparisNo and MusteriKodu |
| OrderCreateDto.ItemsOnWire | src/DTOs/Order/OrderCreateDTO.php:35 | the items go out under Urunler, one wire item per item, in order |
| OrderCreateDto.PaymentOnWire | src/DTOs/Order/OrderCreateDTO.php:36-38 | notes and payment kind go out under Notlar, OdemeTipi, OdemeYontemi, absent ones as null |
| OrderCreateDto.AmountsOnWire | src/DTOs/Order/OrderCreateDTO.php:39-49 | total, shipping amount and order date go out under ToplamTutar, KargoTutari, SiparisTarihi |
| OrderCreateDto.DeliveryOnWire | src/DTOs/Order/OrderCreateDTO.php:41-43 | the delivery address goes out under the Teslimat keys, absent parts as null |
| OrderCreateDto.BillingOnWire | src/DTOs/Order/OrderCreateDTO.php:44-46 | the billing address goes out under the Fatura keys, absent parts as null |
| OrderCreateDto.ContactOnWire | src/DTOs/Order/OrderCreateDTO.php:47-48 | phone and e-mail go out under MusteriTelefon and MusteriEposta, absent ones as null |
| OrderCreateDto.FieldsOnWire | src/DTOs/Order/OrderCreateDTO.php:30-51 | every one of the seventeen keys holds the wire value of its field |
| OrderCreateDto.ReadsHeldOrder | src/DTOs/Order/OrderCreateDTO.php:30-51 | fields holding an order's wire values read back as that order |
| OrderCreateDto.WireRoundTrip | src/DTOs/Order/OrderCreateDTO.php:30-51 | reading the wire form back gives the order: nothing is lost |
| OrderCreateDto.DefaultsOnWire | src/DTOs/Order/OrderCreateDTO.php:11-27 | an order built from number, customer and items sends every optional field as null and today as SiparisTarihi |
| OrderResponseDto.FromArray | src/DTOs/Order/OrderResponseDTO.php:14-22 | read exactly when the id and message are not arrays; success iff Durum is "Basarili" or Basarili is truthy; null or missing id and message give null; the body is kept |
| OrderResponseDto.IntegerIdAsText | src/DTOs/Order/OrderResponseDTO.php:18 | an integer SiparisID becomes its decimal text, which reads back as the integer |
| OrderResponseDto.FailureStatusIsAResult | tests/TicimaxServiceTest.php:64-85 | a "Hatali" body is a result with success false and the message, not an error |
| OrderResponseDto.SuccessBody | tests/TicimaxServiceTest.php:26-59 | the test's success body gives success, the message, and an id that compares equal to 12345 as the test does |
| OrderResponseDto.MissingStatusIsNoError | src/DTOs/Order/OrderResponseDTO.php:17 | a body without Durum is read, success then depending on Basarili alone |
| OrderListResponseDto.IntField | src/DTOs/Order/OrderListResponseDTO.php:18-20 | a missing or null integer field gives its default, an int is kept, an array is a TypeError |
| OrderListResponseDto.OrdersField | src/DTOs/Order/OrderListResponseDTO.php:17 | the orders are the Siparis array when present, an empty list when missing or null, a TypeError otherwise |
| OrderListResponseDto.FromArray | src/DTOs/Order/OrderListResponseDTO.php:14-22 | read exactly when every field is accepted, each field of the result being the field as read with its default |
| OrderListResponseDto.WellTypedBodyIsRead | src/DTOs/Order/OrderListResponseDTO.php:14-22 | any subset of the four keys may be missing: a well-typed body is read, missing fields taking 0, 1 and 10 |
| OrderListResponseDto.OrdersPreserved | src/DTOs/Order/OrderListResponseDTO.php:17 | the order records are passed on as sent, same count |
| OrderListResponseDto.EmptyObjectDefaults | src/DTOs/Order/OrderListResponseDTO.php:17-20 | an empty body object gives no orders, count 0, page 1, page size 10 |
| OrderListResponseDto.LeadingNumericCount | src/DTOs/Order/OrderListResponseDTO.php:18 | a total count sent as a leading-numeric string such as "12abc" is read as its leading integer, the other fields taking their defaults |
| OrderListResponseDto.TwoRecordPage | tests/TicimaxServiceTest.php:88-131 | the test's two-record page gives both records, count 2, page 1, page size 10 |
| Service.TrimTrailingSlashes | src/Services/TicimaxService.php:47 | the base URL is the input cut before its trailing slashes, and does not end in '/' |
| Service.TrimIdempotent | src/Services/TicimaxService.php:47 | trimming twice is trimming once |
| Service.TrimIsLongestSuch | src/Services/TicimaxService.php:47 | the trimmed URL is the only prefix without a trailing '/' that leaves only slashes behind |
| Service.ListQuery | src/Services/TicimaxService.php:203-206 | the query holds every filter key plus the two page keys; the page keys win and other filters are kept |
| Service.Settle | src/Services/TicimaxService.php:124-150 | a Guzzle failure gets the operation's prefix and another exception the general one, both keeping the code; a falsy body is the 500 invalid-response error; a DTO comes back exactly when the mapping accepts the body, and a TypeError passes through |
| Service.Decoded | src/Services/TicimaxService.php:129-131 | a body that is not JSON decodes to null, and the decoded body is falsy exactly when the body is not JSON or is one of PHP's falsy values |
| Service.FalsyBodyIsInvalid | src/Services/TicimaxService.php:131-133 | an unparseable or falsy body always ends in the 500 invalid-response error |
| Service.TransportFailureKeepsCode | src/Services/TicimaxService.php:136-142 | a transport failure keeps its code and starts with the operation's prefix |
| Service.SuccessfulCreation | tests/TicimaxServiceTest.php:24-60 | the test's creation reply reaches the caller as success with the message and an id that reads as 12345 |
| Service.StringBodyIsUncaught | src/Services/TicimaxService.php:131-135 | a truthy JSON string body passes the check and then fails `fromArray`'s array parameter |
| Service.TicimaxService.constructor | src/Services/TicimaxService.php:40-67 | the settings are stored with the base URL trimmed, and the built client uses that URL, the timeout and the retry policy |
| Service.TicimaxService.SetClient | src/Services/TicimaxService.php:110-113 | replaces the client and nothing else |
| Service.TicimaxService.CreateOrder | src/Services/TicimaxService.php:122-151 | POSTs the order's wire form to SiparisEkle; the reply is settled with the prefix "Order creation failed: " |
| Service.TicimaxService.GetOrder | src/Services/TicimaxService.php:160-189 | GETs SiparisDetay with `siparisId`; the reply is settled with the prefix "Failed to get order: " |
| Service.TicimaxService.GetOrders | src/Services/TicimaxService.php:200-235 | GETs SiparisListele with the merged query (page 1 and 100 per page unless given); the reply is settled with the list prefix into a list response |

## Left out

- The Guzzle transport itself is not modelled: the handler stack, the `base_uri` join, headers (`Accept`, `Authorization: Bearer`), the timeout, sleeping and the middleware's own bookkeeping. The transport is the `send` parameter, and the retry behaviour is modelled separately in `Retry`.
- Guzzle's `http_errors` option is not modelled. It decides whether a 4xx/5xx reply is thrown (as a Guzzle exception) or returned as a body. The `send` parameter makes that choice, which covers both behaviours.
- The number Guzzle passes to the delay function is not modelled. `Retry.Delay` takes that number as given.
- `json_decode` is not modelled. The decoded body is an input; text that is not JSON is `None`, which reads as null.
- The service provider, the facade and the configuration file are not part of this model. They only wire configuration into the constructor.
- Float arithmetic is modelled with `real`. Rounding in `price * quantity` is not captured.
- `Php.ToNullableString`: the text of a float is kept symbolic (`FloatText`), because PHP's float-to-string formatting is not spelled out.
- `Php.ToInt`: a string is read for an optional '-' or '+' sign and the digits after it. A leading-numeric string such as "12abc" gives its leading integer, as PHP 8 does; the warning PHP emits for it is not modelled. Strings with leading or trailing whitespace, and strings whose digits go on with a fraction or an exponent ('.', 'e' or 'E'), which PHP also accepts, are a TypeError in the model. `int` overflow and non-finite floats are not modelled.
- `Service.ListQuery`: the filters have string keys. `array_merge` renumbers integer keys, and that renumbering is not modelled.
- The order of keys in a JSON object is not modelled, because maps are unordered.
- `Retry.Delay` uses unbounded integers. The overflow of `2 ** $retries` into a float for large retry counts is not modelled.
- A host that turns PHP warnings (such as the missing `Durum` key) into exceptions is not modelled.
- `OrderItemDto.ToArray`: its contract says only that the result is an associative array. The keys and values are stated by `OrderItemDto.KeysOnWire`, `OrderItemDto.RequiredFieldsOnWire` and `OrderItemDto.WireRoundTrip`.
- `OrderCreateDto.ToArray`: its contract says only that the result is an associative array. The keys and values are stated by `OrderCreateDto.KeysOnWire`, the field lemmas, `OrderCreateDto.FieldsOnWire` and `OrderCreateDto.WireRoundTrip`.
- `OrderCreateDto.Create`: `items` is a sequence of items. A PHP `array` of other values, or with non-list keys, is not modelled.
- The exception chaining (`previous`) and the `details` array of `TicimaxApiException` are not modelled beyond `details` being empty. `src/Exceptions/TicimaxApiException.php` is not part of this model.

=== FILE: dates.dfy ===
/** Calendar dates and their `Y-m-d` text, the form in which an order date is
    sent when none is given. */
module Dates {

  import opened Options
  import Decimal

  type Month = m: int | 1 <= m <= 12 witness 1
  type Day = d: int | 1 <= d <= 31 witness 1

  /** A date as the system clock reports it. */
  datatype Date = Date(year: nat, month: Month, day: Day)

  /** `date('Y-m-d')`: the year with at least four digits, then the month and
      the day with two digits each, separated by '-'. */
  function FormatYmd(d: Date): (s: string)
    ensures |s| >= 10
    ensures s[|s| - 6] == '-' && s[|s| - 3] == '-'
    ensures s[..|s| - 6] == Field(d.year, 4)
    ensures s[|s| - 5..|s| - 3] == Field(d.month, 2) && s[|s| - 2..] == Field(d.day, 2)
  {
    Joined(Field(d.year, 4), Field(d.month, 2), Field(d.day, 2))
  }

  /** n in decimal, zero-padded to the given width. */
  function Field(n: nat, width: nat): (f: string)
    ensures |f| >= width
    ensures n < 100 && width == 2 ==> |f| == 2
  {
    DigitsBelowHundred(n);
    Decimal.PadLeft(Decimal.Digits(n), width)
  }

  lemma DigitsBelowHundred(n: nat)
    ensures n < 100 ==> |Decimal.Digits(n)| <= 2
  {
  }

  lemma FieldReadsBack(n: nat, width: nat)
    ensures Decimal.AllDigits(Field(n, width)) && Decimal.ParseDigits(Field(n, width)) == n
  {
    Decimal.ParsePadded(Decimal.Digits(n), width);
    Decimal.ParseDigitsOfDigits(n);
  }

  function Joined(y: string, m: string, d: string): (s: string)
    requires |y| >= 4 && |m| == 2 && |d| == 2
    ensures |s| >= 10
    ensures s[|s| - 6] == '-' && s[|s| - 3] == '-'
    ensures s[..|s| - 6] == y && s[|s| - 5..|s| - 3] == m && s[|s| - 2..] == d
  {
    y + "-" + m + "-" + d
  }

  /** Reads `Y-m-d` text back; None when it is not of that form or names no
      month or day. */
  function ParseYmd(s: string): Option<Date> {
    if |s| >= 10 && s[|s| - 6] == '-' && s[|s| - 3] == '-' then
      FromFields(s[..|s| - 6], s[|s| - 5..|s| - 3], s[|s| - 2..])
    else None
  }

  function FromFields(y: string, m: string, d: string): Option<Date> {
    if Decimal.AllDigits(y) && Decimal.AllDigits(m) && Decimal.AllDigits(d) then
      var month := Decimal.ParseDigits(m);
      var day := Decimal.ParseDigits(d);
      if 1 <= month <= 12 && 1 <= day <= 31 then Some(Date(Decimal.ParseDigits(y), month, day)) else None
    else None
  }

  lemma FieldsRoundTrip(d: Date)
    ensures FromFields(Field(d.year, 4), Field(d.month, 2), Field(d.day, 2)) == Some(d)
  {
    FieldReadsBack(d.year, 4);
    FieldReadsBack(d.month, 2);
    FieldReadsBack(d.day, 2);
  }

  /** The text of a date names that date and no other. */
  lemma YmdRoundTrip(d: Date)
    ensures ParseYmd(FormatYmd(d)) == Some(d)
  {
    FieldsRoundTrip(d);
  }
}

=== FILE: decimal.dfy ===
/** Decimal text of integers, as PHP writes an int when it turns it into a
    string, and the reading back of such text. */
module Decimal {

  import opened Options

  predicate IsDigit(c: char) {
    '0' <= c <= '9'
  }

  predicate AllDigits(s: string) {
    forall i :: 0 <= i < |s| ==> IsDigit(s[i])
  }

  function DigitChar(d: nat): (c: char)
    requires d < 10
    ensures IsDigit(c) && DigitValue(c) == d
  {
    "0123456789"[d]
  }

  function DigitValue(c: char): nat
    requires IsDigit(c)
  {
    (c as int - '0' as int) as nat
  }

  /** The shortest decimal text of n: no leading zeros, "0" for zero. */
  function Digits(n: nat): (s: string)
    ensures |s| > 0 && AllDigits(s)
    ensures |s| > 1 ==> s[0] != '0'
    decreases n
  {
    if n < 10 then [DigitChar(n)] else Digits(n / 10) + [DigitChar(n % 10)]
  }

  /** The number a run of decimal digits denotes (leading zeros allowed). */
  function ParseDigits(s: string): nat
    requires AllDigits(s)
  {
    if s == [] then 0 else ParseDigits(s[..|s| - 1]) * 10 + DigitValue(s[|s| - 1])
  }

  lemma {:induction false} ParseDigitsOfDigits(n: nat)
    ensures ParseDigits(Digits(n)) == n
    decreases n
  {
    if n >= 10 {
      var s := Digits(n);
      assert s[..|s| - 1] == Digits(n / 10);
      ParseDigitsOfDigits(n / 10);
    }
  }

  lemma {:induction false} LeadingZeroIgnored(s: string)
    requires AllDigits(s)
    ensures AllDigits("0" + s) && ParseDigits("0" + s) == ParseDigits(s)
    decreases |s|
  {
    var z := "0" + s;
    if s != [] {
      assert z[..|z| - 1] == "0" + s[..|s| - 1];
      LeadingZeroIgnored(s[..|s| - 1]);
    }
  }

  /** n copies of '0'. */
  function Zeros(n: nat): (z: string)
    ensures |z| == n && forall i :: 0 <= i < n ==> z[i] == '0'
  {
    seq(n, _ => '0')
  }

  /** s preceded by '0's up to the given width (PHP's zero padding of date fields). */
  function PadLeft(s: string, width: nat): (r: string)
    ensures |r| == if |s| < width then width else |s|
    ensures r == Zeros(|r| - |s|) + s
  {
    if |s| < width then Zeros(width - |s|) + s else s
  }

  lemma {:induction false} ParseAfterZeros(k: nat, s: string)
    requires AllDigits(s)
    ensures AllDigits(Zeros(k) + s) && ParseDigits(Zeros(k) + s) == ParseDigits(s)
    decreases k
  {
    if k > 0 {
      ParseAfterZeros(k - 1, s);
      assert Zeros(k) + s == "0" + (Zeros(k - 1) + s);
      LeadingZeroIgnored(Zeros(k - 1) + s);
    } else {
      assert Zeros(k) + s == s;
    }
  }

  lemma ParsePadded(s: string, width: nat)
    requires AllDigits(s)
    ensures AllDigits(PadLeft(s, width)) && ParseDigits(PadLeft(s, width)) == ParseDigits(s)
  {
    var r := PadLeft(s, width);
    ParseAfterZeros(|r| - |s|, s);
  }

  /** The text PHP makes of an int: an optional '-' and the digits of its magnitude. */
  function IntText(i: int): (s: string)
    ensures |s| > 0
    ensures (s[0] == '-') == (i < 0)
  {
    if i < 0 then "-" + Digits(-i) else Digits(i)
  }

  /** An optionally signed run of decimal digits, read as an integer; None for any
      other text. */
  function ParseInt(s: string): (r: Option<int>)
    ensures r.Some? ==> |s| > 0
    ensures r.Some? && r.value < 0 ==> s[0] == '-'
  {
    if |s| == 0 then None
    else if s[0] == '-' || s[0] == '+' then
      match ParseUnsigned(s[1..])
      case None => None
      case Some(magnitude) => Some(if s[0] == '-' then -(magnitude as int) else magnitude as int)
    else ParseUnsigned(s)
  }

  /** A non-empty run of decimal digits, read as a natural number. */
  function ParseUnsigned(s: string): (r: Option<nat>)
    ensures r.Some? <==> |s| > 0 && AllDigits(s)
  {
    if |s| > 0 && AllDigits(s) then Some(ParseDigits(s)) else None
  }

  /** The length of the sign, 0 or 1, at the start of s. */
  function SignLength(s: string): (p: nat)
    ensures p <= |s|
    ensures p == 1 <==> |s| > 0 && (s[0] == '-' || s[0] == '+')
  {
    if |s| > 0 && (s[0] == '-' || s[0] == '+') then 1 else 0
  }

  /** The length of the run of digits that starts at index i of s. */
  function DigitRun(s: string, i: nat): (n: nat)
    requires i <= |s|
    ensures i + n <= |s|
    ensures forall k :: i <= k < i + n ==> IsDigit(s[k])
    ensures i + n < |s| ==> !IsDigit(s[i + n])
    decreases |s| - i
  {
    if i < |s| && IsDigit(s[i]) then 1 + DigitRun(s, i + 1) else 0
  }

  /** Any digit run ended by a non-digit or by the end of s is the run DigitRun finds. */
  lemma {:induction false} DigitRunIsMaximal(s: string, i: nat, j: nat)
    requires i <= j <= |s|
    requires forall k :: i <= k < j ==> IsDigit(s[k])
    requires j == |s| || !IsDigit(s[j])
    ensures DigitRun(s, i) == j - i
    decreases j - i
  {
    if i < j {
      DigitRunIsMaximal(s, i + 1, j);
    }
  }

  /** A character that would continue a number as a fraction or an exponent. */
  predicate IsNumberMark(c: char) {
    c == '.' || c == 'e' || c == 'E'
  }

  /** The integer a leading-numeric string starts with: an optional sign and a
      run of digits, whatever follows being ignored. None when no digit follows
      the sign, and when the digits go on as a fraction or an exponent. */
  function LeadingInt(s: string): (r: Option<int>)
    ensures r.Some? ==> exists k :: 0 < k <= |s| && ParseInt(s[..k]) == r && (k == |s| || !IsDigit(s[k]))
    ensures ParseInt(s).Some? ==> r == ParseInt(s)
    ensures r.Some? && r.value < 0 ==> s[0] == '-'
  {
    var p := SignLength(s);
    var n := DigitRun(s, p);
    LeadingPrefix(s);
    if n == 0 || (p + n < |s| && IsNumberMark(s[p + n])) then None
    else ParseInt(s[..p + n])
  }

  /** The sign and the digit run after it form a decimal integer, and when s
      is one it is all of s. */
  lemma LeadingPrefix(s: string)
    ensures var p, n := SignLength(s), DigitRun(s, SignLength(s));
            (n > 0 ==> ParseInt(s[..p + n]).Some?) && (ParseInt(s).Some? ==> s[..p + n] == s)
  {
    var p, n := SignLength(s), DigitRun(s, SignLength(s));
    var t := s[..p + n];
    forall k | 0 <= k < |t[p..]| ensures IsDigit(t[p..][k]) {
      assert t[p..][k] == s[p + k];
    }
    WholeIntIsLeading(s);
  }

  /** A whole decimal integer is its own leading run. */
  lemma WholeIntIsLeading(s: string)
    ensures ParseInt(s).Some? ==>
              0 < DigitRun(s, SignLength(s)) && SignLength(s) + DigitRun(s, SignLength(s)) == |s|
  {
    if ParseInt(s).Some? {
      var p := SignLength(s);
      assert AllDigits(s[p..]);
      forall k | p <= k < |s| ensures IsDigit(s[k]) {
        assert s[k] == s[p..][k - p];
      }
      DigitRunIsMaximal(s, p, |s|);
    }
  }

  /** The text of an int followed by anything that does not continue it as a
      number is read as that int. */
  lemma LeadingIntOfText(i: int, tail: string)
    requires tail == [] || (!IsDigit(tail[0]) && !IsNumberMark(tail[0]))
    ensures LeadingInt(IntText(i) + tail) == Some(i)
  {
    var t := IntText(i);
    var s := t + tail;
    var p := if i < 0 then 1 else 0;
    assert s[..|t|] == t;
    if i < 0 {
      assert t[1..] == Digits(-i);
    } else {
      assert t == Digits(i);
    }
    assert SignLength(s) == p;
    forall k | p <= k < |t| ensures IsDigit(s[k]) {
      assert s[k] == t[p..][k - p];
    }
    DigitRunIsMaximal(s, p, |t|);
    IntTextRoundTrip(i);
  }

  /** Reading back the text of an int gives the int. */
  lemma {:induction false} IntTextRoundTrip(i: int)
    ensures ParseInt(IntText(i)) == Some(i)
  {
    if i < 0 {
      NegativeTextReadBack(-i);
    } else {
      UnsignedTextReadBack(i);
    }
  }

  lemma NegativeTextReadBack(n: nat)
    requires n > 0
    ensures ParseInt(IntText(-(n as int))) == Some(-(n as int))
  {
    var s := IntText(-(n as int));
    assert s == "-" + Digits(n);
    assert s[0] == '-' && s[1..] == Digits(n);
    DigitsReadBack(n);
  }

  lemma UnsignedTextReadBack(n: nat)
    ensures ParseInt(IntText(n)) == Some(n)
  {
    var s := IntText(n);
    assert s == Digits(n);
    assert IsDigit(s[0]);
    DigitsReadBack(n);
  }

  lemma DigitsReadBack(n: nat)
    ensures ParseUnsigned(Digits(n)) == Some(n)
  {
    ParseDigitsOfDigits(n);
  }

  /** Different ints have different texts. */
  lemma IntTextInjective(i: int, j: int)
    ensures IntText(i) == IntText(j) ==> i == j
  {
    IntTextRoundTrip(i);
    IntTextRoundTrip(j);
  }
}

=== FILE: options.dfy ===
/** The optional value used throughout the model for PHP's nullable values and
    for keys that may be missing. */
module Options {

  datatype Option<+T> = None | Some(value: T) {

    /** The value, or the given default when there is none (PHP's `??`). */
    function GetOr(default: T): (r: T)
      ensures Some? ==> r == value
      ensures None? ==> r == default
    {
      match this
      case Some(v) => v
      case None => default
    }
  }
}

=== FILE: order_create.dfy ===
/** The order sent to the order-creation endpoint, and its wire form. */
module OrderCreateDto {

  import opened Options
  import opened Php
  import Dates
  import OrderItemDto

  type OrderItem = OrderItemDto.OrderItem

  /** An order to create. Its order date is always set once it is built. */
  datatype OrderCreate = OrderCreate(
    orderNumber: string,
    customerCode: string,
    items: seq<OrderItem>,
    notes: Option<string>,
    paymentType: Option<string>,
    paymentMethod: Option<string>,
    totalAmount: Option<real>,
    shippingAmount: Option<real>,
    deliveryAddress: Option<string>,
    deliveryCity: Option<string>,
    deliveryCounty: Option<string>,
    billingAddress: Option<string>,
    billingCity: Option<string>,
    billingCounty: Option<string>,
    customerPhone: Option<string>,
    customerEmail: Option<string>,
    orderDate: string)

  /** The constructor. `today` is the clock's reading; an order date that is
      given is kept, a missing one becomes today in Y-m-d form. */
  function Create(
    today: Dates.Date,
    orderNumber: string,
    customerCode: string,
    items: seq<OrderItem>,
    notes: Option<string> := None,
    paymentType: Option<string> := None,
    paymentMethod: Option<string> := None,
    totalAmount: Option<real> := None,
    shippingAmount: Option<real> := None,
    deliveryAddress: Option<string> := None,
    deliveryCity: Option<string> := None,
    deliveryCounty: Option<string> := None,
    billingAddress: Option<string> := None,
    billingCity: Option<string> := None,
    billingCounty: Option<string> := None,
    customerPhone: Option<string> := None,
    customerEmail: Option<string> := None,
    orderDate: Option<string> := None): (o: OrderCreate)
    ensures orderDate.Some? ==> o.orderDate == orderDate.value
    ensures orderDate.None? ==> o.orderDate == Dates.FormatYmd(today)
    ensures orderDate.None? ==> Dates.ParseYmd(o.orderDate) == Some(today)
    ensures o.orderNumber == orderNumber && o.customerCode == customerCode && o.items == items
    ensures o.notes == notes && o.paymentType == paymentType && o.paymentMethod == paymentMethod
    ensures o.totalAmount == totalAmount && o.shippingAmount == shippingAmount
    ensures o.deliveryAddress == deliveryAddress && o.deliveryCity == deliveryCity
    ensures o.deliveryCounty == deliveryCounty && o.billingAddress == billingAddress
    ensures o.billingCity == billingCity && o.billingCounty == billingCounty
    ensures o.customerPhone == customerPhone && o.customerEmail == customerEmail
  {
    Dates.YmdRoundTrip(today);
    OrderCreate(orderNumber, customerCode, items, notes, paymentType, paymentMethod,
                totalAmount, shippingAmount, deliveryAddress, deliveryCity, deliveryCounty,
                billingAddress, billingCity, billingCounty, customerPhone, customerEmail,
                orderDate.GetOr(Dates.FormatYmd(today)))
  }

  /** The seventeen keys of an order on the wire. */
  const OrderKeys: set<string> :=
    {"SiparisNo", "MusteriKodu", "Urunler", "Notlar", "OdemeTipi", "OdemeYontemi",
     "ToplamTutar", "KargoTutari", "TeslimatAdresi", "TeslimatIl", "TeslimatIlce",
     "FaturaAdresi", "FaturaIl", "FaturaIlce", "MusteriTelefon", "MusteriEposta", "SiparisTarihi"}

  /** `array_map` of the items' `toArray`: one wire item per item, in order. */
  function ItemsToWire(items: seq<OrderItem>): (ws: seq<Json>)
    ensures |ws| == |items|
  {
    seq(|items|, i requires 0 <= i < |items| => OrderItemDto.ToArray(items[i]))
  }

  /** The wire items are the items' own wire forms, one per item, in the
      items' order. */
  lemma ItemsMappedInOrder(items: seq<OrderItem>)
    ensures |ItemsToWire(items)| == |items|
    ensures forall i :: 0 <= i < |items| ==> ItemsToWire(items)[i] == OrderItemDto.ToArray(items[i])
  {
  }

  /** Reads wire items back; None when any one of them does not read. */
  function ItemsFromWire(ws: seq<Json>): Option<seq<OrderItem>> {
    if ws == [] then Some([])
    else match (OrderItemDto.FromWire(ws[0]), ItemsFromWire(ws[1..]))
      case (Some(item), Some(rest)) => Some([item] + rest)
      case _ => None
  }

  /** The items' wire forms read back as the items, in order. */
  lemma {:induction false} ItemsRoundTrip(items: seq<OrderItem>)
    ensures ItemsFromWire(ItemsToWire(items)) == Some(items)
  {
    if items != [] {
      var ws := ItemsToWire(items);
      assert ws[1..] == ItemsToWire(items[1..]);
      ItemsRoundTrip(items[1..]);
      OrderItemDto.WireRoundTrip(items[0]);
      assert [items[0]] + items[1..] == items;
    }
  }

  /** `toArray`: the order as the remote API names its fields, the items in
      their own wire form and in order; an absent optional field is written
      as null, never left out. */
  function ToArray(o: OrderCreate): (j: Json)
    ensures j.JObject?
  {
    JObject(map[
      "SiparisNo" := JString(o.orderNumber),
      "MusteriKodu" := JString(o.customerCode),
      "Urunler" := JList(ItemsToWire(o.items)),
      "Notlar" := NullableString(o.notes),
      "OdemeTipi" := NullableString(o.paymentType),
      "OdemeYontemi" := NullableString(o.paymentMethod),
      "ToplamTutar" := NullableFloat(o.totalAmount),
      "KargoTutari" := NullableFloat(o.shippingAmount),
      "TeslimatAdresi" := NullableString(o.deliveryAddress),
      "TeslimatIl" := NullableString(o.deliveryCity),
      "TeslimatIlce" := NullableString(o.deliveryCounty),
      "FaturaAdresi" := NullableString(o.billingAddress),
      "FaturaIl" := NullableString(o.billingCity),
      "FaturaIlce" := NullableString(o.billingCounty),
      "MusteriTelefon" := NullableString(o.customerPhone),
      "MusteriEposta" := NullableString(o.customerEmail),
      "SiparisTarihi" := JString(o.orderDate)])
  }

  /** The wire form always has exactly the seventeen keys. */
  lemma KeysOnWire(o: OrderCreate)
    ensures ToArray(o).fields.Keys == OrderKeys
  {
  }

  /** Order number and customer code are sent unchanged under SiparisNo and
      MusteriKodu. */
  lemma IdentityOnWire(o: OrderCreate)
    ensures ToArray(o).fields["SiparisNo"] == JString(o.orderNumber)
    ensures ToArray(o).fields["MusteriKodu"] == JString(o.customerCode)
  {
  }

  /** The items are sent under Urunler, one wire item per item, in order. */
  lemma ItemsOnWire(o: OrderCreate)
    ensures ToArray(o).fields["Urunler"] == JList(ItemsToWire(o.items))
  {
  }

  /** Notes and payment kind are sent under their remote names. */
  lemma PaymentOnWire(o: OrderCreate)
    ensures ToArray(o).fields["Notlar"] == NullableString(o.notes)
    ensures ToArray(o).fields["OdemeTipi"] == NullableString(o.paymentType)
    ensures ToArray(o).fields["OdemeYontemi"] == NullableString(o.paymentMethod)
  {
  }

  /** The amounts and the order date are sent under their remote names. */
  lemma AmountsOnWire(o: OrderCreate)
    ensures ToArray(o).fields["ToplamTutar"] == NullableFloat(o.totalAmount)
    ensures ToArray(o).fields["KargoTutari"] == NullableFloat(o.shippingAmount)
    ensures ToArray(o).fields["SiparisTarihi"] == JString(o.orderDate)
  {
  }

  /** The delivery address is sent under its remote names. */
  lemma DeliveryOnWire(o: OrderCreate)
    ensures ToArray(o).fields["TeslimatAdresi"] == NullableString(o.deliveryAddress)
    ensures ToArray(o).fields["TeslimatIl"] == NullableString(o.deliveryCity)
    ensures ToArray(o).fields["TeslimatIlce"] == NullableString(o.deliveryCounty)
  {
  }

  /** The billing address is sent under its remote names. */
  lemma BillingOnWire(o: OrderCreate)
    ensures ToArray(o).fields["FaturaAdresi"] == NullableString(o.billingAddress)
    ensures ToArray(o).fields["FaturaIl"] == NullableString(o.billingCity)
    ensures ToArray(o).fields["FaturaIlce"] == NullableString(o.billingCounty)
  {
  }

  /** The customer's phone and e-mail are sent under their remote names. */
  lemma ContactOnWire(o: OrderCreate)
    ensures ToArray(o).fields["MusteriTelefon"] == NullableString(o.customerPhone)
    ensures ToArray(o).fields["MusteriEposta"] == NullableString(o.customerEmail)
  {
  }

  /** All seventeen fields of the wire form, from the lemmas above. */
  lemma FieldsOnWire(o: OrderCreate)
    ensures HoldsFields(ToArray(o).fields, o)
  {
    KeysOnWire(o);
    IdentityOnWire(o);
    ItemsOnWire(o);
    PaymentOnWire(o);
    AmountsOnWire(o);
    DeliveryOnWire(o);
    BillingOnWire(o);
    ContactOnWire(o);
  }

  /** Reads an order back from its wire form (how a remote that echoes the
      order sees it); None when a key is missing or holds a value of the
      wrong kind. */
  function FromWire(j: Json): Option<OrderCreate> {
    if j.JObject? && OrderKeys <= j.fields.Keys then FromFields(j.fields) else None
  }

  function FromFields(f: map<string, Json>): Option<OrderCreate>
    requires OrderKeys <= f.Keys
  {
    var items := if f["Urunler"].JList? then ItemsFromWire(f["Urunler"].items) else None;
    var notes := ReadNullableString(f["Notlar"]);
    var paymentType := ReadNullableString(f["OdemeTipi"]);
    var paymentMethod := ReadNullableString(f["OdemeYontemi"]);
    var totalAmount := ReadNullableFloat(f["ToplamTutar"]);
    var shippingAmount := ReadNullableFloat(f["KargoTutari"]);
    var deliveryAddress := ReadNullableString(f["TeslimatAdresi"]);
    var deliveryCity := ReadNullableString(f["TeslimatIl"]);
    var deliveryCounty := ReadNullableString(f["TeslimatIlce"]);
    var billingAddress := ReadNullableString(f["FaturaAdresi"]);
    var billingCity := ReadNullableString(f["FaturaIl"]);
    var billingCounty := ReadNullableString(f["FaturaIlce"]);
    var customerPhone := ReadNullableString(f["MusteriTelefon"]);
    var customerEmail := ReadNullableString(f["MusteriEposta"]);
    if f["SiparisNo"].JString? && f["MusteriKodu"].JString? && f["SiparisTarihi"].JString?
       && items.Some? && notes.Some? && paymentType.Some? && paymentMethod.Some?
       && totalAmount.Some? && shippingAmount.Some?
       && deliveryAddress.Some? && deliveryCity.Some? && deliveryCounty.Some?
       && billingAddress.Some? && billingCity.Some? && billingCounty.Some?
       && customerPhone.Some? && customerEmail.Some?
    then
      Some(OrderCreate(f["SiparisNo"].s, f["MusteriKodu"].s, items.value, notes.value,
                       paymentType.value, paymentMethod.value, totalAmount.value, shippingAmount.value,
                       deliveryAddress.value, deliveryCity.value, deliveryCounty.value,
                       billingAddress.value, billingCity.value, billingCounty.value,
                       customerPhone.value, customerEmail.value, f["SiparisTarihi"].s))
    else None
  }

  /** A field map holding, under each remote key, the wire value of the
      corresponding field of o. */
  predicate HoldsFields(f: map<string, Json>, o: OrderCreate) {
    && OrderKeys <= f.Keys
    && f["SiparisNo"] == JString(o.orderNumber)
    && f["MusteriKodu"] == JString(o.customerCode)
    && f["Urunler"] == JList(ItemsToWire(o.items))
    && f["Notlar"] == NullableString(o.notes)
    && f["OdemeTipi"] == NullableString(o.paymentType)
    && f["OdemeYontemi"] == NullableString(o.paymentMethod)
    && f["ToplamTutar"] == NullableFloat(o.totalAmount)
    && f["KargoTutari"] == NullableFloat(o.shippingAmount)
    && f["TeslimatAdresi"] == NullableString(o.deliveryAddress)
    && f["TeslimatIl"] == NullableString(o.deliveryCity)
    && f["TeslimatIlce"] == NullableString(o.deliveryCounty)
    && f["FaturaAdresi"] == NullableString(o.billingAddress)
    && f["FaturaIl"] == NullableString(o.billingCity)
    && f["FaturaIlce"] == NullableString(o.billingCounty)
    && f["MusteriTelefon"] == NullableString(o.customerPhone)
    && f["MusteriEposta"] == NullableString(o.customerEmail)
    && f["SiparisTarihi"] == JString(o.orderDate)
  }

  /** Fields holding an order's wire values read back as that order. */
  lemma ReadsHeldOrder(f: map<string, Json>, o: OrderCreate)
    requires HoldsFields(f, o)
    ensures FromFields(f) == Some(o)
  {
    ItemsRoundTrip(o.items);
    NullableStringRoundTrip(o.notes);
    NullableStringRoundTrip(o.paymentType);
    NullableStringRoundTrip(o.paymentMethod);
    NullableFloatRoundTrip(o.totalAmount);
    NullableFloatRoundTrip(o.shippingAmount);
    NullableStringRoundTrip(o.deliveryAddress);
    NullableStringRoundTrip(o.deliveryCity);
    NullableStringRoundTrip(o.deliveryCounty);
    NullableStringRoundTrip(o.billingAddress);
    NullableStringRoundTrip(o.billingCity);
    NullableStringRoundTrip(o.billingCounty);
    NullableStringRoundTrip(o.customerPhone);
    NullableStringRoundTrip(o.customerEmail);
  }

  /** The wire form loses nothing: reading it back gives the order. */
  lemma WireRoundTrip(o: OrderCreate)
    ensures FromWire(ToArray(o)) == Some(o)
  {
    FieldsOnWire(o);
    ReadsHeldOrder(ToArray(o).fields, o);
  }

  /** An order built without optional fields sends each of them as null and
      today's date as its order date. */
  lemma DefaultsOnWire(today: Dates.Date, orderNumber: string, customerCode: string, items: seq<OrderItem>)
    ensures var f := ToArray(Create(today, orderNumber, customerCode, items)).fields;
            && f["Notlar"] == JNull && f["OdemeTipi"] == JNull && f["OdemeYontemi"] == JNull
            && f["ToplamTutar"] == JNull && f["KargoTutari"] == JNull
            && f["TeslimatAdresi"] == JNull && f["TeslimatIl"] == JNull && f["TeslimatIlce"] == JNull
            && f["FaturaAdresi"] == JNull && f["FaturaIl"] == JNull && f["FaturaIlce"] == JNull
            && f["MusteriTelefon"] == JNull && f["MusteriEposta"] == JNull
            && f["SiparisTarihi"] == JString(Dates.FormatYmd(today))
  {
    var o := Create(today, orderNumber, customerCode, items);
    FieldsOnWire(o);
  }
}

=== FILE: order_item.dfy ===
/** One line of an order to be created, and its wire form. */
module OrderItemDto {

  import opened Options
  import opened Php

  /** An order line. The total price is always set once the line is built. */
  datatype OrderItem = OrderItem(
    productCode: string,
    quantity: real,
    price: real,
    totalPrice: real,
    productName: Option<string>,
    variantCode: Option<string>,
    barcode: Option<string>,
    tax: Option<real>,
    discount: Option<real>)

  /** The constructor: a total price that is given is kept, a missing one is
      the unit price times the quantity. */
  function Create(
    productCode: string,
    quantity: real,
    price: real,
    totalPrice: Option<real> := None,
    productName: Option<string> := None,
    variantCode: Option<string> := None,
    barcode: Option<string> := None,
    tax: Option<real> := None,
    discount: Option<real> := None): (item: OrderItem)
    ensures totalPrice.Some? ==> item.totalPrice == totalPrice.value
    ensures totalPrice.None? ==> item.totalPrice == price * quantity
    ensures item.productCode == productCode && item.quantity == quantity && item.price == price
    ensures item.productName == productName && item.variantCode == variantCode && item.barcode == barcode
    ensures item.tax == tax && item.discount == discount
  {
    OrderItem(productCode, quantity, price, totalPrice.GetOr(price * quantity),
              productName, variantCode, barcode, tax, discount)
  }

  /** The nine keys of an item on the wire. */
  const ItemKeys: set<string> :=
    {"UrunKodu", "Miktar", "BirimFiyat", "ToplamTutar", "UrunAdi", "VaryasyonKodu", "Barkod", "KDV", "Indirim"}

  /** `toArray`: the item as the remote API names its fields; an absent
      optional field is written as null, never left out. */
  function ToArray(item: OrderItem): (j: Json)
    ensures j.JObject?
  {
    JObject(map[
      "UrunKodu" := JString(item.productCode),
      "Miktar" := JFloat(item.quantity),
      "BirimFiyat" := JFloat(item.price),
      "ToplamTutar" := JFloat(item.totalPrice),
      "UrunAdi" := NullableString(item.productName),
      "VaryasyonKodu" := NullableString(item.variantCode),
      "Barkod" := NullableString(item.barcode),
      "KDV" := NullableFloat(item.tax),
      "Indirim" := NullableFloat(item.discount)])
  }

  /** Reads an item back from its wire form (how a remote that echoes the
      item sees it); None when a key is missing or holds a value of the
      wrong kind. */
  function FromWire(j: Json): Option<OrderItem> {
    if j.JObject? && ItemKeys <= j.fields.Keys then
      var f := j.fields;
      if f["UrunKodu"].JString? && f["Miktar"].JFloat? && f["BirimFiyat"].JFloat? && f["ToplamTutar"].JFloat?
         && ReadNullableString(f["UrunAdi"]).Some? && ReadNullableString(f["VaryasyonKodu"]).Some?
         && ReadNullableString(f["Barkod"]).Some?
         && ReadNullableFloat(f["KDV"]).Some? && ReadNullableFloat(f["Indirim"]).Some?
      then
        Some(OrderItem(f["UrunKodu"].s, f["Miktar"].r, f["BirimFiyat"].r, f["ToplamTutar"].r,
                       ReadNullableString(f["UrunAdi"]).value, ReadNullableString(f["VaryasyonKodu"]).value,
                       ReadNullableString(f["Barkod"]).value,
                       ReadNullableFloat(f["KDV"]).value, ReadNullableFloat(f["Indirim"]).value))
      else None
    else None
  }

  /** The wire form always has exactly the nine keys. */
  lemma KeysOnWire(item: OrderItem)
    ensures ToArray(item).fields.Keys == ItemKeys
  {
  }

  /** The wire form loses nothing: reading it back gives the item. */
  lemma WireRoundTrip(item: OrderItem)
    ensures FromWire(ToArray(item)) == Some(item)
  {
  }

  /** The four required fields are sent under their remote names, unchanged. */
  lemma RequiredFieldsOnWire(item: OrderItem)
    ensures ToArray(item).fields["UrunKodu"] == JString(item.productCode)
    ensures ToArray(item).fields["Miktar"] == JFloat(item.quantity)
    ensures ToArray(item).fields["BirimFiyat"] == JFloat(item.price)
    ensures ToArray(item).fields["ToplamTutar"] == JFloat(item.totalPrice)
  {
  }

  /** A line built without optional fields sends each of them as null. */
  lemma AbsentOptionalsAreNull(productCode: string, quantity: real, price: real)
    ensures var f := ToArray(Create(productCode, quantity, price)).fields;
            f["UrunAdi"] == JNull && f["VaryasyonKodu"] == JNull && f["Barkod"] == JNull
            && f["KDV"] == JNull && f["Indirim"] == JNull
  {
  }
}

=== FILE: order_list_response.dfy ===
/** One page of the order list, read from the decoded response body. */
module OrderListResponseDto {

  import opened Options
  import opened Php
  import Decimal

  /** The raw order records (a PHP array, kept as the remote sent it), the
      total count, the page number and the page size. */
  datatype OrderListResponse = OrderListResponse(orders: Json, totalCount: int, page: int, pageSize: int)

  const DefaultTotalCount: int := 0
  const DefaultPage: int := 1
  const DefaultPageSize: int := 10

  /** An integer field read with a default: the default when the key is
      missing or null, else the value passed to an `int` parameter. */
  function IntField(data: Json, key: string, default: int): (r: Checked<int>)
    ensures Lookup(data, key).None? || Lookup(data, key) == Some(JNull) ==> r == Accepted(default)
    ensures Lookup(data, key).Some? && Lookup(data, key).value.JInt? ==> r == Accepted(Lookup(data, key).value.i)
    ensures Lookup(data, key).Some? && IsArray(Lookup(data, key).value) ==> r.TypeError?
  {
    ToInt(Coalesce(data, key, JInt(default)))
  }

  /** The orders field: the entry when present and not null, else an empty
      list; a value that is not an array is a TypeError. */
  function OrdersField(data: Json): (r: Checked<Json>)
    ensures r.Accepted? ==> IsArray(r.value)
    ensures Lookup(data, "Siparis").None? || Lookup(data, "Siparis") == Some(JNull) ==> r == Accepted(JList([]))
    ensures Lookup(data, "Siparis").Some? && IsArray(Lookup(data, "Siparis").value)
            ==> r == Accepted(Lookup(data, "Siparis").value)
    ensures (Lookup(data, "Siparis").Some? && Lookup(data, "Siparis").value != JNull
             && !IsArray(Lookup(data, "Siparis").value)) ==> r.TypeError?
  {
    var v := Coalesce(data, "Siparis", JList([]));
    if IsArray(v) then Accepted(v) else TypeError
  }

  /** `fromArray`: every field read with its default; the body must be a
      PHP array and each present field of a type PHP accepts, else TypeError. */
  function FromArray(data: Json): (r: Checked<OrderListResponse>)
    ensures !IsArray(data) ==> r.TypeError?
    ensures r.Accepted? <==> IsArray(data) && OrdersField(data).Accepted?
                             && IntField(data, "ToplamAdet", DefaultTotalCount).Accepted?
                             && IntField(data, "Sayfa", DefaultPage).Accepted?
                             && IntField(data, "SayfaBasiKayitSayisi", DefaultPageSize).Accepted?
    ensures r.Accepted? ==> r.value.orders == OrdersField(data).value
    ensures r.Accepted? ==> r.value.totalCount == IntField(data, "ToplamAdet", DefaultTotalCount).value
    ensures r.Accepted? ==> r.value.page == IntField(data, "Sayfa", DefaultPage).value
    ensures r.Accepted? ==> r.value.pageSize == IntField(data, "SayfaBasiKayitSayisi", DefaultPageSize).value
  {
    if !IsArray(data) then TypeError
    else
      match (OrdersField(data), IntField(data, "ToplamAdet", DefaultTotalCount),
             IntField(data, "Sayfa", DefaultPage), IntField(data, "SayfaBasiKayitSayisi", DefaultPageSize))
      case (Accepted(orders), Accepted(total), Accepted(page), Accepted(size)) =>
        Accepted(OrderListResponse(orders, total, page, size))
      case _ => TypeError
  }

  /** A slot that is missing, null, or of the type the DTO expects. */
  predicate IntSlot(fields: map<string, Json>, key: string) {
    key !in fields || fields[key] == JNull || fields[key].JInt?
  }

  /** Any subset of the four keys may be missing: a body whose present keys
      hold an array (orders) or integers is always read, each missing field
      taking its default and each present one its value. */
  lemma WellTypedBodyIsRead(fields: map<string, Json>)
    requires "Siparis" !in fields || fields["Siparis"] == JNull || IsArray(fields["Siparis"])
    requires IntSlot(fields, "ToplamAdet") && IntSlot(fields, "Sayfa") && IntSlot(fields, "SayfaBasiKayitSayisi")
    ensures var r := FromArray(JObject(fields));
            && r.Accepted?
            && r.value.orders == (if "Siparis" in fields && fields["Siparis"] != JNull then fields["Siparis"] else JList([]))
            && r.value.totalCount == (if "ToplamAdet" in fields && fields["ToplamAdet"].JInt? then fields["ToplamAdet"].i else 0)
            && r.value.page == (if "Sayfa" in fields && fields["Sayfa"].JInt? then fields["Sayfa"].i else 1)
            && r.value.pageSize == (if "SayfaBasiKayitSayisi" in fields && fields["SayfaBasiKayitSayisi"].JInt?
                                    then fields["SayfaBasiKayitSayisi"].i else 10)
  {
    IntSlotIsRead(fields, "ToplamAdet", DefaultTotalCount);
    IntSlotIsRead(fields, "Sayfa", DefaultPage);
    IntSlotIsRead(fields, "SayfaBasiKayitSayisi", DefaultPageSize);
  }

  lemma IntSlotIsRead(fields: map<string, Json>, key: string, default: int)
    requires IntSlot(fields, key)
    ensures IntField(JObject(fields), key, default)
            == Accepted(if key in fields && fields[key].JInt? then fields[key].i else default)
  {
  }

  /** The order records are passed on as sent: same records, same order,
      same count. */
  lemma OrdersPreserved(fields: map<string, Json>, records: seq<Json>)
    requires "Siparis" in fields && fields["Siparis"] == JList(records)
    requires FromArray(JObject(fields)).Accepted?
    ensures FromArray(JObject(fields)).value.orders == JList(records)
    ensures Count(FromArray(JObject(fields)).value.orders) == |records|
  {
  }

  /** At the mapper, an empty body object gives the defaults: no orders,
      count 0, page 1, page size 10. Through the service an empty body never
      reaches the mapper: it is falsy, so the call ends in the invalid-response
      error (`Service.FalsyBodyIsInvalid`). */
  lemma EmptyObjectDefaults()
    ensures FromArray(JObject(map[])) == Accepted(OrderListResponse(JList([]), 0, 1, 10))
  {
  }

  /** A count sent as a leading-numeric string, such as "12abc", is read as
      its leading integer; the other fields keep their defaults. */
  lemma LeadingNumericCount(i: int, tail: string)
    requires tail == [] || (!Decimal.IsDigit(tail[0]) && !Decimal.IsNumberMark(tail[0]))
    ensures FromArray(JObject(map["ToplamAdet" := JString(Decimal.IntText(i) + tail)]))
            == Accepted(OrderListResponse(JList([]), i, DefaultPage, DefaultPageSize))
  {
    var count := JString(Decimal.IntText(i) + tail);
    var data := JObject(map["ToplamAdet" := count]);
    LeadingNumericString(i, tail);
    assert Coalesce(data, "ToplamAdet", JInt(DefaultTotalCount)) == count;
    assert "Siparis" !in data.fields && "Sayfa" !in data.fields && "SayfaBasiKayitSayisi" !in data.fields;
  }

  /** The two-record page of the test's example: both records kept in
      order, count 2, page 1, page size 10. */
  lemma TwoRecordPage(a: Json, b: Json)
    ensures var r := FromArray(JObject(map["Siparis" := JList([a, b]), "ToplamAdet" := JInt(2),
                                           "Sayfa" := JInt(1), "SayfaBasiKayitSayisi" := JInt(10)]));
            && r.Accepted? && r.value.orders == JList([a, b]) && Count(r.value.orders) == 2
            && r.value.totalCount == 2 && r.value.page == 1 && r.value.pageSize == 10
  {
  }
}

=== FILE: order_response.dfy ===
/** The result of creating or fetching one order, read from the decoded
    response body. */
module OrderResponseDto {

  import opened Options
  import opened Php
  import Decimal

  /** Whether the remote reported success, the order id and message it sent
      (as PHP strings), and the whole decoded body kept for diagnostics. */
  datatype OrderResponse = OrderResponse(success: bool, orderId: Option<Text>, message: Option<Text>, data: Json)

  /** The status text the remote uses for success. */
  const SuccessStatus: string := "Basarili"

  /** Whether a body reports success: its `Durum` is exactly "Basarili", or
      its `Basarili` entry is present and truthy. */
  predicate ReportsSuccess(data: Json) {
    || Lookup(data, "Durum") == Some(JString(SuccessStatus))
    || (Lookup(data, "Basarili").Some? && Truthy(Lookup(data, "Basarili").value))
  }

  /** Whether a value can be passed to a `?string` parameter, or is missing. */
  predicate StringSlot(data: Json, key: string) {
    Lookup(data, key).None? || !IsArray(Lookup(data, key).value)
  }

  /** `fromArray`. The body must be a PHP array, and `SiparisID` and `Mesaj`
      must not hold arrays, or PHP raises a TypeError; a missing key is no
      error. */
  function FromArray(data: Json): (r: Checked<OrderResponse>)
    ensures r.Accepted? <==> IsArray(data) && StringSlot(data, "SiparisID") && StringSlot(data, "Mesaj")
    ensures r.Accepted? ==> r.value.success == ReportsSuccess(data)
    ensures r.Accepted? ==> r.value.data == data
    ensures r.Accepted? ==> (r.value.orderId.None? <==> Lookup(data, "SiparisID") in {None, Some(JNull)})
    ensures r.Accepted? ==> (r.value.message.None? <==> Lookup(data, "Mesaj") in {None, Some(JNull)})
    ensures r.Accepted? && Lookup(data, "SiparisID").Some? && Lookup(data, "SiparisID").value.JString?
            ==> r.value.orderId == Some(Chars(Lookup(data, "SiparisID").value.s))
    ensures r.Accepted? && Lookup(data, "Mesaj").Some? && Lookup(data, "Mesaj").value.JString?
            ==> r.value.message == Some(Chars(Lookup(data, "Mesaj").value.s))
  {
    if !IsArray(data) then TypeError
    else
      var success := Lookup(data, "Durum") == Some(JString(SuccessStatus))
                     || Truthy(Coalesce(data, "Basarili", JBool(false)));
      match (ToNullableString(Coalesce(data, "SiparisID", JNull)), ToNullableString(Coalesce(data, "Mesaj", JNull)))
      case (Accepted(orderId), Accepted(message)) => Accepted(OrderResponse(success, orderId, message, data))
      case _ => TypeError
  }

  /** An integer order id comes back as its decimal text, which reads back
      as the same integer. */
  lemma IntegerIdAsText(data: Json, id: int)
    requires FromArray(data).Accepted? && Lookup(data, "SiparisID") == Some(JInt(id))
    ensures FromArray(data).value.orderId == Some(Chars(Decimal.IntText(id)))
    ensures Decimal.ParseInt(FromArray(data).value.orderId.value.s) == Some(id)
  {
    Decimal.IntTextRoundTrip(id);
  }

  /** A body saying "Hatali" is a failure result carrying the message, not an
      error. */
  lemma FailureStatusIsAResult(m: string)
    ensures var r := FromArray(JObject(map["Durum" := JString("Hatali"), "Mesaj" := JString(m)]));
            && r.Accepted? && !r.value.success && r.value.message == Some(Chars(m)) && r.value.orderId.None?
  {
  }

  /** The test's success body: success, an id that compares equal to
      the integer 12345 (PHP's loose `==` reads a numeric string as a
      number), and the message. */
  lemma SuccessBody(m: string)
    ensures var r := FromArray(JObject(map["SiparisID" := JInt(12345), "Durum" := JString("Basarili"), "Mesaj" := JString(m)]));
            && r.Accepted? && r.value.success && r.value.message == Some(Chars(m))
            && r.value.orderId.Some? && r.value.orderId.value.Chars?
            && Decimal.ParseInt(r.value.orderId.value.s) == Some(12345)
  {
    var data := JObject(map["SiparisID" := JInt(12345), "Durum" := JString("Basarili"), "Mesaj" := JString(m)]);
    assert Lookup(data, "SiparisID") == Some(JInt(12345));
    IntegerIdAsText(data, 12345);
  }

  /** A body without `Durum` is read without error; success then depends on
      `Basarili` alone. */
  lemma MissingStatusIsNoError(fields: map<string, Json>)
    requires "Durum" !in fields
    requires StringSlot(JObject(fields), "SiparisID") && StringSlot(JObject(fields), "Mesaj")
    ensures FromArray(JObject(fields)).Accepted?
    ensures FromArray(JObject(fields)).value.success
            <==> "Basarili" in fields && Truthy(fields["Basarili"])
  {
  }
}

=== FILE: php.dfy ===
/** The PHP values the client handles: a decoded JSON document (what
    `json_decode($body, true)` yields), key lookup with `??`, PHP's truthiness,
    and the scalar conversions PHP applies when such a value is passed to a
    typed constructor parameter of a DTO (coercive typing mode). */
module Php {

  import opened Options
  import Decimal

  /** A decoded JSON value. A JSON object becomes an associative PHP array and a
      JSON array a list; both are PHP arrays. */
  datatype Json =
    | JNull
    | JBool(b: bool)
    | JInt(i: int)
    | JFloat(r: real)
    | JString(s: string)
    | JList(items: seq<Json>)
    | JObject(fields: map<string, Json>)

  predicate IsArray(v: Json) {
    v.JList? || v.JObject?
  }

  /** `count($v)` of a PHP array. */
  function Count(v: Json): (n: nat)
    requires IsArray(v)
    ensures v.JList? ==> n == |v.items|
    ensures v.JObject? ==> n == |v.fields|
    ensures n == 0 <==> !Truthy(v)
  {
    if v.JList? then |v.items| else |v.fields|
  }

  /** `$a[$key]` for the non-numeric string keys the client reads: the entry
      of an associative array, and nothing in a list (whose keys are 0, 1, ...). */
  function Lookup(a: Json, key: string): (r: Option<Json>)
    ensures r.Some? <==> a.JObject? && key in a.fields
    ensures r.Some? ==> r.value == a.fields[key]
  {
    if a.JObject? && key in a.fields then Some(a.fields[key]) else None
  }

  /** `$a[$key] ?? $default`: the entry when it is present and not null. */
  function Coalesce(a: Json, key: string, default: Json): (r: Json)
    ensures Lookup(a, key).Some? && Lookup(a, key).value != JNull ==> r == Lookup(a, key).value
    ensures Lookup(a, key).None? || Lookup(a, key) == Some(JNull) ==> r == default
    ensures default != JNull ==> r != JNull
    ensures r == default || Lookup(a, key) == Some(r)
  {
    match Lookup(a, key)
    case Some(v) => if v == JNull then default else v
    case None => default
  }

  /** The values PHP converts to false. */
  const FalsyValues: set<Json> :=
    {JNull, JBool(false), JInt(0), JFloat(0.0), JString(""), JString("0"), JList([]), JObject(map[])}

  /** PHP's conversion to bool, as used by `!$data` and by `||`. */
  predicate Truthy(v: Json)
    ensures Truthy(v) <==> v !in FalsyValues
  {
    match v
    case JNull => false
    case JBool(b) => b
    case JInt(i) => i != 0
    case JFloat(r) => r != 0.0
    case JString(s) => s != "" && s != "0"
    case JList(items) => |items| > 0
    case JObject(fields) => |fields| > 0
  }

  /** The outcome of passing a value to a typed parameter: the converted
      value, or the TypeError PHP throws. */
  datatype Checked<+T> = Accepted(value: T) | TypeError

  /** A PHP string obtained from a scalar. A float's text follows PHP's own
      float formatting, which this model does not spell out, so it is kept as
      the float it came from. */
  datatype Text = Chars(s: string) | FloatText(r: real)

  /** Passing v to a `?string` parameter: null stays null, a string is kept, an
      int becomes its decimal text, a bool becomes "1" or "", a float its
      float text, and an array is a TypeError. */
  function ToNullableString(v: Json): (r: Checked<Option<Text>>)
    ensures r.TypeError? <==> IsArray(v)
    ensures r == Accepted(None) <==> v == JNull
    ensures v.JString? ==> r == Accepted(Some(Chars(v.s)))
    ensures v.JInt? ==> r.Accepted? && r.value.Some? && r.value.value.Chars?
                        && Decimal.ParseInt(r.value.value.s) == Some(v.i)
  {
    match v
    case JNull => Accepted(None)
    case JBool(b) => Accepted(Some(Chars(if b then "1" else "")))
    case JInt(i) =>
      Decimal.IntTextRoundTrip(i);
      Accepted(Some(Chars(Decimal.IntText(i))))
    case JFloat(r) => Accepted(Some(FloatText(r)))
    case JString(s) => Accepted(Some(Chars(s)))
    case JList(_) => TypeError
    case JObject(_) => TypeError
  }

  /** A float cut to an int toward zero, as PHP converts a float with a
      fractional part when an int is expected. */
  function TruncateTowardZero(r: real): (i: int)
    ensures r >= 0.0 ==> 0 <= i && i as real <= r < i as real + 1.0
    ensures r < 0.0 ==> i <= 0 && i as real - 1.0 < r <= i as real
  {
    if r >= 0.0 then r.Floor else -((-r).Floor)
  }

  /** Passing v to an `int` parameter: an int is kept, a bool becomes 1 or 0, a
      float is truncated, a string is read for the integer it starts with (a
      decimal string wholly, a leading-numeric one such as "12abc" up to its
      digits, with a warning PHP emits and the model leaves out); null, arrays
      and strings that do not start with a number are a TypeError. */
  function ToInt(v: Json): (r: Checked<int>)
    ensures v.JInt? ==> r == Accepted(v.i)
    ensures v == JNull || IsArray(v) ==> r.TypeError?
    ensures v.JString? && Decimal.ParseInt(v.s).Some? ==> r == Accepted(Decimal.ParseInt(v.s).value)
    ensures v.JString? ==> (r.Accepted? <==> Decimal.LeadingInt(v.s).Some?)
    ensures v.JString? && r.Accepted? ==> Decimal.LeadingInt(v.s) == Some(r.value)
    ensures v.JFloat? ==> r.Accepted? && (r.value as real - v.r) * (r.value as real - v.r) < 1.0
    ensures v.JFloat? ==> r == Accepted(TruncateTowardZero(v.r))
    ensures v.JBool? ==> r == Accepted(if v.b then 1 else 0)
  {
    match v
    case JInt(i) => Accepted(i)
    case JBool(b) => Accepted(if b then 1 else 0)
    case JFloat(x) => Accepted(TruncateTowardZero(x))
    case JString(s) =>
      (match Decimal.LeadingInt(s)
       case Some(i) => Accepted(i)
       case None => TypeError)
    case JNull => TypeError
    case JList(_) => TypeError
    case JObject(_) => TypeError
  }

  /** An int's text followed by a non-numeric tail, as in "12abc", is accepted
      by an `int` parameter as that int. */
  lemma LeadingNumericString(i: int, tail: string)
    requires tail == [] || (!Decimal.IsDigit(tail[0]) && !Decimal.IsNumberMark(tail[0]))
    ensures ToInt(JString(Decimal.IntText(i) + tail)) == Accepted(i)
  {
    Decimal.LeadingIntOfText(i, tail);
  }

  /** The JSON value of a nullable string field. */
  function NullableString(o: Option<string>): (v: Json)
    ensures v == JNull <==> o.None?
  {
    match o
    case Some(s) => JString(s)
    case None => JNull
  }

  /** The JSON value of a nullable float field. */
  function NullableFloat(o: Option<real>): (v: Json)
    ensures v == JNull <==> o.None?
  {
    match o
    case Some(r) => JFloat(r)
    case None => JNull
  }

  /** Reading a nullable string field back; None when v is neither null nor a string. */
  function ReadNullableString(v: Json): Option<Option<string>> {
    match v
    case JNull => Some(None)
    case JString(s) => Some(Some(s))
    case _ => None
  }

  /** Reading a nullable float field back; None when v is neither null nor a float. */
  function ReadNullableFloat(v: Json): Option<Option<real>> {
    match v
    case JNull => Some(None)
    case JFloat(r) => Some(Some(r))
    case _ => None
  }

  /** A nullable string field's wire value reads back as the field. */
  lemma NullableStringRoundTrip(s: Option<string>)
    ensures ReadNullableString(NullableString(s)) == Some(s)
  {
  }

  /** A nullable float field's wire value reads back as the field. */
  lemma NullableFloatRoundTrip(r: Option<real>)
    ensures ReadNullableFloat(NullableFloat(r)) == Some(r)
  {
  }
}

=== FILE: retry.dfy ===
/** The retry policy the service installs on its HTTP client: the decider that
    says whether a finished attempt is tried again, the exponential backoff
    delay, and what the two imply for one call. */
module Retry {

  import opened Options

  /** The two settings the policy reads from the service: how many retries a
      call may take and the base delay in milliseconds. */
  datatype Policy = Policy(retryTimes: int, retrySleep: int)

  /** What one attempt ended with, as the decider sees it: a connection
      failure (a ConnectException and no response), a response with its
      status, or some other failure with neither a response nor a
      ConnectException. */
  datatype Attempt = ConnectFailed | Responded(status: int) | OtherFailure

  /** The status code of the response that reaches the decider, if any. */
  function ResponseOf(a: Attempt): Option<int> {
    if a.Responded? then Some(a.status) else None
  }

  /** The decider: given the retries taken so far, the response (if any) and
      whether the attempt failed with a ConnectException, whether to try again. */
  function ShouldRetry(p: Policy, retries: nat, response: Option<int>, connectFailure: bool): (retry: bool)
    ensures retries >= p.retryTimes ==> !retry
    ensures retries < p.retryTimes && connectFailure ==> retry
    ensures retries < p.retryTimes && response.Some? && (response.value >= 500 || response.value == 429) ==> retry
    ensures retry ==> connectFailure || (response.Some? && (response.value >= 500 || response.value == 429))
  {
    if retries >= p.retryTimes then false
    else if connectFailure then true
    else if response.Some? && (response.value >= 500 || response.value == 429) then true
    else false
  }

  /** The decider applied to an attempt. */
  function Decide(p: Policy, retries: nat, a: Attempt): bool {
    ShouldRetry(p, retries, ResponseOf(a), a.ConnectFailed?)
  }

  /** A response status that is not retried: below 500 and not 429. */
  lemma NotRetriedStatuses(p: Policy, retries: nat, status: int)
    requires status < 500 && status != 429
    ensures !Decide(p, retries, Responded(status))
    ensures !Decide(p, retries, OtherFailure)
  {
  }

  function Pow2(n: nat): (r: nat)
    ensures r >= 1
  {
    if n == 0 then 1 else 2 * Pow2(n - 1)
  }

  /** The backoff before a retry numbered n: retrySleep * 2^n milliseconds. */
  function Delay(p: Policy, n: nat): (d: int)
    ensures d == 0 <==> p.retrySleep == 0
    ensures p.retrySleep >= 0 ==> d >= p.retrySleep
    ensures p.retrySleep < 0 ==> d <= p.retrySleep
  {
    p.retrySleep * Pow2(n)
  }

  /** Each delay is twice the one before. */
  lemma DelayDoubles(p: Policy, n: nat)
    ensures Delay(p, n + 1) == 2 * Delay(p, n)
  {
    calc {
      Delay(p, n + 1);
      p.retrySleep * (2 * Pow2(n));
      2 * (p.retrySleep * Pow2(n));
    }
  }

  /** With a non-negative base delay, later retries never wait less. */
  lemma {:induction false} DelayMonotone(p: Policy, m: nat, n: nat)
    requires p.retrySleep >= 0 && m <= n
    ensures 0 <= Delay(p, m) <= Delay(p, n)
    decreases n - m
  {
    if m < n {
      DelayMonotone(p, m, n - 1);
      DelayDoubles(p, n - 1);
    }
  }

  /** The total wait of the delays numbered 0 .. k-1. */
  function TotalDelay(p: Policy, k: nat): int {
    if k == 0 then 0 else TotalDelay(p, k - 1) + Delay(p, k - 1)
  }

  /** The waits add up to retrySleep * (2^k - 1). */
  lemma {:induction false} TotalDelayClosedForm(p: Policy, k: nat)
    ensures TotalDelay(p, k) == p.retrySleep * (Pow2(k) - 1)
  {
    if k > 0 {
      TotalDelayClosedForm(p, k - 1);
      calc {
        TotalDelay(p, k);
        p.retrySleep * (Pow2(k - 1) - 1) + p.retrySleep * Pow2(k - 1);
        p.retrySleep * (2 * Pow2(k - 1) - 1);
      }
    }
  }

  /** The retries one call takes when the transport ends attempt i with
      script(i), counting from the k-th attempt on: the decider is asked with
      the number of retries taken so far, and a refusal ends the call. */
  function RetriesFrom(p: Policy, script: nat -> Attempt, k: nat): (n: nat)
    ensures k + n <= if p.retryTimes > k then p.retryTimes else k
    decreases if p.retryTimes > k then p.retryTimes - k else 0
  {
    if Decide(p, k, script(k)) then 1 + RetriesFrom(p, script, k + 1) else 0
  }

  /** The retries a whole call takes. */
  function Retries(p: Policy, script: nat -> Attempt): (n: nat)
    ensures n <= if p.retryTimes > 0 then p.retryTimes else 0
  {
    RetriesFrom(p, script, 0)
  }

  /** A call takes at most retryTimes retries, so at most retryTimes + 1
      attempts, and none when retryTimes <= 0. */
  lemma RetriesBounded(p: Policy, script: nat -> Attempt)
    ensures Retries(p, script) <= if p.retryTimes > 0 then p.retryTimes else 0
    ensures p.retryTimes <= 0 ==> Retries(p, script) == 0
  {
  }

  /** Every retry taken was granted by the decider, and the attempt the call
      ends with is one the decider refused. */
  lemma {:induction false} RetriesAreGranted(p: Policy, script: nat -> Attempt, k: nat)
    ensures forall i :: k <= i < k + RetriesFrom(p, script, k) ==> Decide(p, i, script(i))
    ensures !Decide(p, k + RetriesFrom(p, script, k), script(k + RetriesFrom(p, script, k)))
    decreases if p.retryTimes > k then p.retryTimes - k else 0
  {
    if Decide(p, k, script(k)) {
      RetriesAreGranted(p, script, k + 1);
    }
  }

  /** When every attempt fails to connect, the call takes exactly retryTimes
      retries: the bound is reached. */
  lemma {:induction false} ConnectFailuresExhaustRetries(p: Policy, script: nat -> Attempt, k: nat)
    requires forall i :: script(i) == ConnectFailed
    ensures RetriesFrom(p, script, k) == if p.retryTimes > k then p.retryTimes - k else 0
    decreases if p.retryTimes > k then p.retryTimes - k else 0
  {
    if k < p.retryTimes {
      ConnectFailuresExhaustRetries(p, script, k + 1);
    }
  }

  /** A server error followed by a success: exactly one retry (the default
      policy allows three). */
  lemma ServerErrorThenSuccess(script: nat -> Attempt)
    requires script(0) == Responded(500) && script(1) == Responded(200)
    ensures Retries(Policy(3, 100), script) == 1
  {
  }

  /** A 404 is never retried. */
  lemma NotFoundNeverRetried(p: Policy, script: nat -> Attempt)
    requires script(0) == Responded(404)
    ensures Retries(p, script) == 0
  {
  }
}

=== FILE: service.dfy ===
/** The API client: its configuration, the requests it shapes for the three
    endpoints, and how it turns what the transport gives back into a DTO or
    an API error. */
module Service {

  import opened Options
  import opened Php
  import Retry
  import OrderCreateDto
  import OrderResponseDto
  import OrderListResponseDto
  import Decimal

  const CreateOrderPath: string := "/api/Siparis/SiparisEkle"
  const GetOrderPath: string := "/api/Siparis/SiparisDetay"
  const ListOrdersPath: string := "/api/Siparis/SiparisListele"

  /** The prefix each operation puts before the message of a transport
      (Guzzle) failure. */
  const CreateOrderFailed: string := "Order creation failed: "
  const GetOrderFailed: string := "Failed to get order: "
  const ListOrdersFailed: string := "Sipariş listesi alınamadı: "
  /** The prefix put before the message of any other exception. */
  const Unexpected: string := "An unexpected error occurred: "
  const InvalidResponse: string := "Invalid response from Ticimax API"

  /** The page keys of the list query. */
  const PageKey: string := "sayfa"
  const PageSizeKey: string := "sayfaBasiKayitSayisi"

  datatype Verb = Get | Post

  /** A request as the service hands it to its client: verb, path relative to
      the base URI, query parameters and JSON body. */
  datatype Request = Request(verb: Verb, path: string, query: map<string, Json>, json: Option<Json>)

  /** The HTTP client requests go through: the one the constructor builds on
      the base URL, with the timeout and the retry policy of the service, or
      one supplied from outside, known here only by a name. */
  datatype Client = Built(baseUri: string, timeout: int, policy: Retry.Policy) | Supplied(name: string)

  /** An exception thrown while a request is made or its body read: a Guzzle
      exception (transport failure, after retries) or any other exception. */
  datatype Thrown = Thrown(guzzle: bool, message: string, code: int)

  /** What the client gives back for one call: a thrown exception, or the
      body of the response as `json_decode` read it (None when it is not
      valid JSON, which `json_decode` reports as null). */
  datatype Reply = Threw(e: Thrown) | Received(body: Option<Json>)

  /** What an operation ends with: the DTO; the API exception it throws
      (message, code, details); or a PHP TypeError, which is not an
      exception and so passes through both catch arms unchanged. */
  datatype Outcome<+T> = Returned(value: T) | ApiError(message: string, code: int, details: map<string, Json>) | Uncaught

  /** `rtrim($url, '/')`: the URL without its trailing slashes. */
  function TrimTrailingSlashes(url: string): (r: string)
    ensures |r| <= |url| && r == url[..|r|]
    ensures r == [] || r[|r| - 1] != '/'
    ensures forall i :: |r| <= i < |url| ==> url[i] == '/'
  {
    if |url| > 0 && url[|url| - 1] == '/' then TrimTrailingSlashes(url[..|url| - 1]) else url
  }

  /** Trimming a trimmed URL changes nothing. */
  lemma TrimIdempotent(url: string)
    ensures TrimTrailingSlashes(TrimTrailingSlashes(url)) == TrimTrailingSlashes(url)
  {
  }

  /** The trimmed URL is the longest prefix that does not end in '/': any
      prefix without a trailing '/' that leaves only slashes behind is it. */
  lemma {:induction false} TrimIsLongestSuch(url: string, p: string)
    requires |p| <= |url| && p == url[..|p|]
    requires p == [] || p[|p| - 1] != '/'
    requires forall i :: |p| <= i < |url| ==> url[i] == '/'
    ensures TrimTrailingSlashes(url) == p
    decreases |url|
  {
    if |url| > |p| {
      assert url[..|url| - 1][..|p|] == p;
      TrimIsLongestSuch(url[..|url| - 1], p);
    }
  }

  /** The list query: the filters, then the page keys, which win over
      filters of the same name. */
  function ListQuery(filters: map<string, Json>, page: int, perPage: int): (q: map<string, Json>)
    ensures q.Keys == filters.Keys + {PageKey, PageSizeKey}
    ensures q[PageKey] == JInt(page) && q[PageSizeKey] == JInt(perPage)
    ensures forall k :: k in filters && k != PageKey && k != PageSizeKey ==> q[k] == filters[k]
  {
    filters + map[PageKey := JInt(page), PageSizeKey := JInt(perPage)]
  }

  /** The shared tail of the three operations: the catch arms for a thrown
      exception, the check on the decoded body, and the mapping into a DTO.
      The invalid-body exception is thrown inside the try block and, not
      being a Guzzle exception, is caught by the general arm, which prefixes
      its message and keeps its code 500. */
  function Settle<T>(transportPrefix: string, reply: Reply, fromArray: Json -> Checked<T>): (r: Outcome<T>)
    ensures r.ApiError? ==> r.details == map[]
    ensures reply.Threw? && reply.e.guzzle ==> r == ApiError(transportPrefix + reply.e.message, reply.e.code, map[])
    ensures reply.Threw? && !reply.e.guzzle ==> r == ApiError(Unexpected + reply.e.message, reply.e.code, map[])
    ensures reply.Received? && !Truthy(Decoded(reply.body)) ==> r == ApiError(Unexpected + InvalidResponse, 500, map[])
    ensures r.Returned? <==> reply.Received? && Truthy(Decoded(reply.body)) && fromArray(Decoded(reply.body)).Accepted?
    ensures r.Returned? ==> r.value == fromArray(Decoded(reply.body)).value
    ensures r.Uncaught? <==> reply.Received? && Truthy(Decoded(reply.body)) && fromArray(Decoded(reply.body)).TypeError?
  {
    match reply
    case Threw(e) => ApiError((if e.guzzle then transportPrefix else Unexpected) + e.message, e.code, map[])
    case Received(body) =>
      var data := Decoded(body);
      if !Truthy(data) then ApiError(Unexpected + InvalidResponse, 500, map[])
      else
        match fromArray(data)
        case Accepted(v) => Returned(v)
        case TypeError => Uncaught
  }

  /** `json_decode($contents, true)`: null for text that is not JSON. */
  function Decoded(body: Option<Json>): (data: Json)
    ensures body.None? ==> data == JNull
    ensures !Truthy(data) <==> body.None? || body.value in FalsyValues
  {
    body.GetOr(JNull)
  }

  /** An unparseable or empty body never yields a DTO: null, false, 0, 0.0,
      "", "0", [] and {} all end in the invalid-response error, code 500. */
  lemma FalsyBodyIsInvalid<T>(transportPrefix: string, body: Option<Json>, fromArray: Json -> Checked<T>)
    requires body.None? || body.value in FalsyValues
    ensures Settle(transportPrefix, Received(body), fromArray) == ApiError(Unexpected + InvalidResponse, 500, map[])
  {
  }

  /** A transport failure keeps its code and is reported under the
      operation's own prefix. */
  lemma TransportFailureKeepsCode<T>(transportPrefix: string, e: Thrown, fromArray: Json -> Checked<T>)
    requires e.guzzle
    ensures Settle(transportPrefix, Threw(e), fromArray).code == e.code
    ensures Settle(transportPrefix, Threw(e), fromArray).message[..|transportPrefix|] == transportPrefix
  {
  }

  /** The test's creation reply, with an integer id, reaches the caller
      as a successful response whose id reads as 12345. */
  lemma SuccessfulCreation(m: string)
    ensures var body := JObject(map["SiparisID" := JInt(12345), "Durum" := JString("Basarili"), "Mesaj" := JString(m)]);
            var r := Settle(CreateOrderFailed, Received(Some(body)), OrderResponseDto.FromArray);
            && r.Returned? && r.value.success && r.value.message == Some(Chars(m))
            && r.value.orderId.Some? && r.value.orderId.value.Chars?
            && Decimal.ParseInt(r.value.orderId.value.s) == Some(12345)
  {
    OrderResponseDto.SuccessBody(m);
  }

  /** A body that is a JSON string rather than an object passes the falsy
      check and then fails the `array` parameter of `fromArray`: a TypeError,
      not an API error. */
  lemma StringBodyIsUncaught(transportPrefix: string, s: string)
    requires s != "" && s != "0"
    ensures Settle(transportPrefix, Received(Some(JString(s))), OrderResponseDto.FromArray).Uncaught?
    ensures Settle(transportPrefix, Received(Some(JString(s))), OrderListResponseDto.FromArray).Uncaught?
  {
  }

  /** The client: its settings, and the HTTP client it sends through. */
  class TicimaxService {
    var client: Client
    var baseUrl: string
    var apiKey: string
    var timeout: int
    var retryTimes: int
    var retrySleep: int

    /** The retry policy the constructor installs reads these two settings. */
    function Policy(): Retry.Policy
      reads this
    {
      Retry.Policy(retryTimes, retrySleep)
    }

    constructor (baseUrl: string, apiKey: string, timeout: int := 30, retryTimes: int := 3, retrySleep: int := 100)
      ensures this.baseUrl == TrimTrailingSlashes(baseUrl)
      ensures this.apiKey == apiKey && this.timeout == timeout
      ensures this.retryTimes == retryTimes && this.retrySleep == retrySleep
      ensures client == Built(this.baseUrl, timeout, Policy())
    {
      this.baseUrl := TrimTrailingSlashes(baseUrl);
      this.apiKey := apiKey;
      this.timeout := timeout;
      this.retryTimes := retryTimes;
      this.retrySleep := retrySleep;
      this.client := Built(TrimTrailingSlashes(baseUrl), timeout, Retry.Policy(retryTimes, retrySleep));
    }

    /** `setClient`: replaces the HTTP client and nothing else. */
    method SetClient(c: Client)
      modifies this`client
      ensures client == c
    {
      client := c;
    }

    /** `createOrder`: POSTs the order's wire form and reads the reply into an
        order response. */
    method CreateOrder(order: OrderCreateDto.OrderCreate, send: (Client, Request) -> Reply)
      returns (result: Outcome<OrderResponseDto.OrderResponse>)
      ensures var request := Request(Post, CreateOrderPath, map[], Some(OrderCreateDto.ToArray(order)));
              result == Settle(CreateOrderFailed, send(client, request), OrderResponseDto.FromArray)
      ensures var reply := send(client, Request(Post, CreateOrderPath, map[], Some(OrderCreateDto.ToArray(order))));
              reply.Threw? && reply.e.guzzle ==> result == ApiError(CreateOrderFailed + reply.e.message, reply.e.code, map[])
    {
      var reply := send(client, Request(Post, CreateOrderPath, map[], Some(OrderCreateDto.ToArray(order))));
      result := Settle(CreateOrderFailed, reply, OrderResponseDto.FromArray);
    }

    /** `getOrder`: GETs the order with the id as the `siparisId` query
        parameter and reads the reply into an order response. */
    method GetOrder(orderId: string, send: (Client, Request) -> Reply)
      returns (result: Outcome<OrderResponseDto.OrderResponse>)
      ensures var request := Request(Get, GetOrderPath, map["siparisId" := JString(orderId)], None);
              result == Settle(GetOrderFailed, send(client, request), OrderResponseDto.FromArray)
      ensures var reply := send(client, Request(Get, GetOrderPath, map["siparisId" := JString(orderId)], None));
              reply.Threw? && reply.e.guzzle ==> result == ApiError(GetOrderFailed + reply.e.message, reply.e.code, map[])
    {
      var reply := send(client, Request(Get, GetOrderPath, map["siparisId" := JString(orderId)], None));
      result := Settle(GetOrderFailed, reply, OrderResponseDto.FromArray);
    }

    /** `getOrders`: GETs one page of the list, the filters and the page keys
        as query, and reads the reply into a list response. */
    method GetOrders(send: (Client, Request) -> Reply, filters: map<string, Json> := map[], page: int := 1, perPage: int := 100)
      returns (result: Outcome<OrderListResponseDto.OrderListResponse>)
      ensures var request := Request(Get, ListOrdersPath, ListQuery(filters, page, perPage), None);
              result == Settle(ListOrdersFailed, send(client, request), OrderListResponseDto.FromArray)
      ensures var reply := send(client, Request(Get, ListOrdersPath, ListQuery(filters, page, perPage), None));
              reply.Threw? && reply.e.guzzle ==> result == ApiError(ListOrdersFailed + reply.e.message, reply.e.code, map[])
    {
      var reply := send(client, Request(Get, ListOrdersPath, ListQuery(filters, page, perPage), None));
      result := Settle(ListOrdersFailed, reply, OrderListResponseDto.FromArray);
    }
  }
}
